=== FILE: README.md ===
# File encryption properties of Parquet modular encryption, in Dafny

This project models `FileEncryptionProperties`, the per-file encryption
configuration of Parquet's modular encryption. Before a file is written, a
producer uses the `Builder` to stage these options:

- the cipher (`AES_GCM_V1` or `AES_GCM_CTR_V1`);
- whether the footer is encrypted;
- the footer key and its key-retrieval metadata;
- an optional AAD prefix, and whether that prefix is stored in the file;
- an optional map from column paths to per-column encryption objects.

`build()` runs a private constructor. It validates the footer key and the
column map. From random file-unique bytes it derives two things:

- the file AAD, which is the seed of every page AAD in the file;
- the algorithm record written into the footer.

After construction the writer uses these operations:

- it resolves each column's encryption policy;
- it marks the configuration as utilized;
- it wipes the keys at the end of the write;
- `deepClone` produces an independent configuration for another file.

## How Java objects are represented

The source's important behaviours are about object identity. Which buffers
are copied and which are shared decides what a wipe destroys. So the model
represents the relevant part of the Java heap as a value, `Memory.Heap`:

- `bufs` is the sequence of `byte[]` buffers;
- `cols` is the sequence of `ColumnEncryptionProperties` objects;
- a reference is an index into one of those sequences.

Allocation appends to the heap, so a new reference is always distinct from
every existing one. A field that holds the same index as another field
aliases that buffer. Wiping overwrites buffer contents in place. Every
operation is a pure function or a method that returns the new heap together
with its result. A thrown exception is a `Failure` of the `Result` type. A
Java `null` is `None`.

`HashMap` iteration order is unspecified. So `withEncryptedColumns` and
`deepClone` take an `order` parameter: a sequence that lists each key of the
map once (`Memory.Enumerates`). Their contracts hold for every such order.
Where the outcome depends on the order, the contract says how.

The cipher record is a two-variant union (`Algorithm.EncryptionAlgorithm`).
Each variant carries `aad_file_unique`, `supply_aad_prefix` and an optional
copy of the stored `aad_prefix` bytes.

## Where the code differs from its comments

The model follows the code in each of these cases:

- The comment on `builder(footerKey)` says a null key is allowed. The
  `Builder` constructor reads `footerKey.length`, so a null key fails with a
  null-pointer exception (`NewBuilder` returns `Failure(NullPointer)`). The
  constructor's own "Footer key is null" check is kept in `Create`, but
  `Build` and `DeepClone` can never reach it.
- The footer key is copied once, when the builder is created. It is not
  copied again at `build()`. Every configuration built from one builder
  therefore shares one key buffer, and wiping any of them zeroes the key of
  all of them (`Lifecycle.RepeatedBuildsShareFooterKey`).
- The AAD prefix and the footer key metadata are kept by reference, not
  copied (lines 105 and 109). The file AAD, by contrast, was computed once,
  at construction. If the caller later overwrites its prefix array,
  `deepClone()` without a new prefix reads the new bytes (line 333). The
  clone's file AAD then no longer starts with the source's prefix
  (`Lifecycle.CallerPrefixWritesReachClones`).
- `withEncryptedColumns` marks the column objects one at a time. If it fails
  part-way, the objects visited before the failure stay marked utilized.
- `deepClone` copies `storeAadPrefixInFile` from the source. Take a source
  without a prefix (its flag is false) and give `deepClone` a new prefix. The
  clone is then built with a prefix that is not stored in the file, and its
  algorithm record says the reader must supply the prefix.
- The comment on `deepClone` says that when no new prefix is given the
  prefix "will be cloned too" (line 320). The code passes the source's own
  prefix buffer to the constructor (line 333), so the clone shares it
  (`FileEncryption.ClonePrefix`).
- The comment on `builder(footerKey)` says the column keys are cloned (line
  114). `withEncryptedColumns` copies only the map (line 245). The builder and
  every configuration built from it hold the caller's column objects
  themselves, and the wipe zeroes those objects' keys.
- `withAlgorithm(null)` is accepted (line 162). `build()` then passes the
  footer key checks and fails with a null-pointer exception when it asks the
  cipher for its record (line 87). The builder's cipher is therefore an
  `Option`, and `Create` fails with `NullPointer` on `None`.

## Model

| member | source | states |
|---|---|---|
| Bytes.Utf8 | parquet-hadoop/src/main/java/org/apache/parquet/crypto/FileEncryptionProperties.java:176 | The UTF-8 bytes of a key identifier: each character becomes 1 to 4 bytes, so the result is empty exactly when the identifier is. |
| Bytes.Utf8OfAscii | parquet-hadoop/src/main/java/org/apache/parquet/crypto/FileEncryptionProperties.java:176 | An ASCII identifier is encoded as the same bytes, one per character. |
| Memory.CloneColumn | parquet-hadoop/src/main/java/org/apache/parquet/crypto/FileEncryptionProperties.java:329 | A column object's deep clone is a new object for the same column and encryption choice. It is not utilized, and its key is a new buffer with the same bytes. |
| Algorithm.Populate | parquet-hadoop/src/main/java/org/apache/parquet/crypto/FileEncryptionProperties.java:87-102 | The record has exactly the variant chosen by the cipher, and that variant carries the given fields. |
| FileEncryption.Create | parquet-hadoop/src/main/java/org/apache/parquet/crypto/FileEncryptionProperties.java:52-110 | Construction fails with the first applicable error: a null key, then a key length other than 16, 24 or 32, then an empty column map, then a null cipher. It succeeds exactly when none applies. On success the configuration is not utilized and keeps the key buffer itself, not a copy. Its file AAD is the prefix bytes followed by the file-unique bytes. `supply_aad_prefix` holds iff a prefix exists and is not stored. `aad_prefix` is set, to the prefix's bytes, iff a prefix exists and is stored. The record's variant is the cipher's. Every reference the result holds lies in the heap iff the metadata and the map's objects do. |
| FileEncryption.ReaderRecoversFileAad | parquet-hadoop/src/main/java/org/apache/parquet/crypto/FileEncryptionProperties.java:77-102 | A reader that rebuilds the file AAD from the algorithm record gets the writer's file AAD. When the record asks for the prefix, the reader gets it if and only if it supplies exactly the writer's prefix. |
| FileEncryption.GetColumnProperties | parquet-hadoop/src/main/java/org/apache/parquet/crypto/FileEncryptionProperties.java:273-288 | With no column map, a new entry encrypted with the footer key is returned. With a map, a listed column gets exactly its stored object and the heap is unchanged. An unlisted column gets a new plaintext entry. No existing object or buffer changes. |
| FileEncryption.SetUtilized | parquet-hadoop/src/main/java/org/apache/parquet/crypto/FileEncryptionProperties.java:298-304 | Afterwards the configuration is utilized, and no other field has changed. |
| FileEncryption.UtilizedFlagIsInert | parquet-hadoop/src/main/java/org/apache/parquet/crypto/FileEncryptionProperties.java:298-314 | Setting the flag does not change the key buffers the wipe reaches, what the wipe does, how columns resolve, whether the configuration passes the constructor's checks, or what counts as its deep clone. |
| FileEncryption.WipeOutEncryptionKeys | parquet-hadoop/src/main/java/org/apache/parquet/crypto/FileEncryptionProperties.java:306-314 | The footer key and the key of every mapped column read as all zeros, with their lengths unchanged. Every other buffer and every column object is unchanged. |
| FileEncryption.WipeKeepsDisjointKeys | parquet-hadoop/src/main/java/org/apache/parquet/crypto/FileEncryptionProperties.java:306-314 | If two configurations own disjoint key buffers, wiping one leaves every key buffer of the other as it was. |
| FileEncryption.KeyBufsInHeap | parquet-hadoop/src/main/java/org/apache/parquet/crypto/FileEncryptionProperties.java:306-314 | Every buffer a configuration's wipe reaches exists in the heap. |
| FileEncryption.CloneColumnMap | parquet-hadoop/src/main/java/org/apache/parquet/crypto/FileEncryptionProperties.java:325-331 | The cloned map has the same key set as the source map. Each value is a deep clone, made during this call, of the source's object for that key. Every column gets its own clone, and no two clones share a key buffer. Existing objects and buffers are untouched. |
| FileEncryption.NewCloneKeepsDistinct | parquet-hadoop/src/main/java/org/apache/parquet/crypto/FileEncryptionProperties.java:328-329 | Adding one newly allocated object with a newly allocated key to a map of distinct objects with distinct keys keeps both distinct. |
| FileEncryption.CloneKeysDisjoint | parquet-hadoop/src/main/java/org/apache/parquet/crypto/FileEncryptionProperties.java:324-331 | A clone whose footer key and column objects were all created after the source owns no key buffer that the source owns. |
| FileEncryption.CloneReaderRecoversFileAad | parquet-hadoop/src/main/java/org/apache/parquet/crypto/FileEncryptionProperties.java:333-338 | A reader of a deep clone's footer rebuilds the clone's file AAD. When the clone's record asks for the prefix, the reader gets it iff it supplies exactly the clone's prefix. |
| FileEncryption.CreateMakesDeepClone | parquet-hadoop/src/main/java/org/apache/parquet/crypto/FileEncryptionProperties.java:333-338 | Passing the cloned key and column map to the constructor succeeds exactly when the source satisfies the constructor's checks. The result is then a deep clone of the source. |
| FileEncryption.DeepClone | parquet-hadoop/src/main/java/org/apache/parquet/crypto/FileEncryptionProperties.java:322-339 | The clone succeeds exactly when the source is valid. It has a new footer key buffer with equal bytes. It keeps the source's cipher, footer flag, key metadata and store flag. Its prefix is the new one if given, else the source's. Its record stores that prefix's bytes iff the prefix exists and the store flag is set, so a reader of its footer rebuilds its file AAD. Its column map has the same keys, each mapped to its own deep clone with its own key buffer. It is not utilized, and the source and all existing objects are unchanged. The two configurations own disjoint keys, so wiping either one leaves the other's keys intact. A source without a prefix, given a new prefix, yields a clone whose record says the reader must supply the prefix. |
| FileEncryptionBuilder.NewBuilder | parquet-hadoop/src/main/java/org/apache/parquet/crypto/FileEncryptionProperties.java:123-143 | A null key fails. Otherwise the builder holds a new buffer of equal length and contents, and later writes to the caller's array do not change it. The defaults are AES_GCM_V1, an encrypted footer, nothing else set, and the store flag false. |
| FileEncryptionBuilder.WithPlaintextFooter | parquet-hadoop/src/main/java/org/apache/parquet/crypto/FileEncryptionProperties.java:150-153 | The footer flag becomes false, and nothing else changes. |
| FileEncryptionBuilder.WithAlgorithm | parquet-hadoop/src/main/java/org/apache/parquet/crypto/FileEncryptionProperties.java:161-164 | The cipher becomes the given one, null included, and nothing else changes. |
| FileEncryptionBuilder.WithFooterKeyMetadata | parquet-hadoop/src/main/java/org/apache/parquet/crypto/FileEncryptionProperties.java:185-194 | A null argument leaves the builder as it is. A non-null argument succeeds iff no metadata is set yet, and otherwise fails with "already set". On success only the metadata field changes, and it holds the caller's buffer. |
| FileEncryptionBuilder.WithFooterKeyID | parquet-hadoop/src/main/java/org/apache/parquet/crypto/FileEncryptionProperties.java:172-177 | A null identifier leaves the builder as it is. Otherwise the call succeeds iff no metadata is set yet. The metadata becomes a new buffer holding the identifier's UTF-8 bytes, and nothing else in the builder changes. |
| FileEncryptionBuilder.WithAadPrefix | parquet-hadoop/src/main/java/org/apache/parquet/crypto/FileEncryptionProperties.java:200-210 | A null argument leaves the builder as it is. A non-null argument succeeds iff no prefix is set yet, and otherwise fails with "already set". On success the prefix is the caller's buffer and the store flag is true, and nothing else changes. |
| FileEncryptionBuilder.WithoutAadPrefixStorage | parquet-hadoop/src/main/java/org/apache/parquet/crypto/FileEncryptionProperties.java:216-222 | The call fails iff no prefix is set. On success only the store flag changes, and it becomes false. |
| FileEncryptionBuilder.SecondSetFails | parquet-hadoop/src/main/java/org/apache/parquet/crypto/FileEncryptionProperties.java:185-210 | After a successful non-null metadata or prefix call, a second non-null call of the same setter fails. |
| FileEncryptionBuilder.FirstReused | parquet-hadoop/src/main/java/org/apache/parquet/crypto/FileEncryptionProperties.java:238-243 | The result is the first entry, in iteration order, whose object is already utilized when the loop reaches it, or no entry if there is none. |
| FileEncryptionBuilder.NoReuseIff | parquet-hadoop/src/main/java/org/apache/parquet/crypto/FileEncryptionProperties.java:238-243 | Whatever the iteration order, the marking loop finishes without throwing iff no object in the map is already utilized and no object is listed under two columns. |
| FileEncryptionBuilder.MarkEntries | parquet-hadoop/src/main/java/org/apache/parquet/crypto/FileEncryptionProperties.java:238-243 | The loop stops at the first entry whose object is utilized when reached, and reports it. The objects of exactly the entries before that one, or of all entries if none, are marked utilized, and nothing else changes. |
| FileEncryptionBuilder.WithEncryptedColumns | parquet-hadoop/src/main/java/org/apache/parquet/crypto/FileEncryptionProperties.java:231-247 | A null map is a no-op, and a second map fails with the heap unchanged. Otherwise the call succeeds iff no object is utilized and none is shared between columns. On success every object of the map is marked utilized and the builder holds the map. On failure the error is "re-used", and exactly the objects of the entries before the first re-used one are marked. No key buffer changes. |
| FileEncryptionBuilder.Build | parquet-hadoop/src/main/java/org/apache/parquet/crypto/FileEncryptionProperties.java:249-254 | Build succeeds iff the key length is 16, 24 or 32, the column map is absent or non-empty, and the cipher is not null. Otherwise it fails with the length error, the empty-map error or the null-pointer error, in that order. A success is valid and not utilized. It carries the builder's options, and shares the builder's own footer key buffer. Its file AAD is the builder's prefix bytes followed by the file-unique bytes. Its record has the builder's cipher as variant, asks for the prefix iff one is set but not stored, and holds the bytes of the builder's prefix iff that prefix is stored. When the store flag is only ever raised with a prefix, the record holds a prefix iff the flag is set. |
| FileEncryptionBuilder.ChosenCipherIsBuilt | parquet-hadoop/src/main/java/org/apache/parquet/crypto/FileEncryptionProperties.java:87-102 | For a builder that builds, choosing a null cipher makes the build fail with a null-pointer error. Choosing a cipher yields a build whose record has that cipher's variant with the same fields, and which differs from the original build only in the cipher and the record. |
| Lifecycle.RepeatedBuildsShareFooterKey | parquet-hadoop/src/main/java/org/apache/parquet/crypto/FileEncryptionProperties.java:249-254 | Two builds from one builder succeed together and share one footer key buffer, so wiping the first zeroes the second's key. Their file AADs are equal iff their file-unique bytes are. |
| Lifecycle.WipeIsStableAndIdempotent | parquet-hadoop/src/main/java/org/apache/parquet/crypto/FileEncryptionProperties.java:306-314 | After a wipe the configuration still satisfies its invariant, because key lengths are kept. Every column resolves to the same object as before. A second wipe changes nothing. |
| Lifecycle.ResolvedColumnKeyIsWiped | parquet-hadoop/src/main/java/org/apache/parquet/crypto/FileEncryptionProperties.java:279-281 | A listed column resolves to its stored object, and that object's key is one of those the wipe zeroes. |
| Lifecycle.CallerPrefixWritesReachClones | parquet-hadoop/src/main/java/org/apache/parquet/crypto/FileEncryptionProperties.java:322-339 | The configuration and a clone made without a new prefix both hold the caller's prefix buffer. After the caller writes other bytes into it, the configuration's file AAD and stored record are unchanged. The clone's file AAD is the new bytes followed by its file-unique bytes, so its prefix part differs from the source's. |
| Lifecycle.FooterKeyOnlyScenario | parquet-hadoop/src/main/java/org/apache/parquet/crypto/FileEncryptionProperties.java:273-314 | Take a 16-byte key with no prefix and no map. Every column is encrypted with the footer key, and the file AAD is the file-unique bytes. After the wipe the configuration's key reads as 16 zeros, while the caller's array keeps its bytes. |
| Lifecycle.ShortKeyScenario | parquet-hadoop/src/main/java/org/apache/parquet/crypto/FileEncryptionProperties.java:65-67 | A 15-byte key is refused with the wrong-length error. |
| Lifecycle.ColumnMapScenario | parquet-hadoop/src/main/java/org/apache/parquet/crypto/FileEncryptionProperties.java:231-288 | With one encrypted column "x", its object becomes utilized. "x" resolves to that object and "y" to a new plaintext entry. Offering the same object again is refused as re-used. |

## Left out

- `SecureRandom` (lines 73-75): the file-unique bytes are a parameter of
  `Create`, `Build` and `DeepClone`, of length `AAD_FILE_UNIQUE_LENGTH`.
  Their freshness and uniqueness are probabilistic and are not modelled.
- `AesEncryptor` is not part of this model. `concatByteArrays` is taken to be
  sequence concatenation. `AAD_FILE_UNIQUE_LENGTH` is taken to be 8, the
  length of the file-unique AAD in the Parquet modular encryption format.
- `ParquetCipher.getEncryptionAlgorithm()` and the Thrift
  `EncryptionAlgorithm` union are not part of this model. They appear as
  `Algorithm.Populate` and a two-variant datatype.
- `ColumnEncryptionProperties` is not part of this model. A column object is
  reduced to its path, its encrypted flag, an optional key buffer and the
  utilized flag. Its key metadata and its own key-length checks are not
  modelled.
- `ColumnPath` is modelled as a sequence of strings.
- No reader of the file AAD is part of this source. `Algorithm.ReaderFileAad`
  only states what the record's three fields mean, so that the derivation can
  be checked against them.
- The Thrift setters `setAad_file_unique` and `setAad_prefix` (lines 90-100)
  are not part of this model. The record is taken to hold copies of the bytes
  it is given, as generated Thrift setters for binary fields make. So a
  caller's later write to its prefix array does not reach the record.
- `fileAAD` is the `aadFileUnique` array itself when there is no prefix
  (line 79). The model keeps it as a value. That sharing would only show if a
  caller wrote into the array returned by `getFileAAD`.
- The `HashMap` copy at line 245 is a map value in the model. A later change
  to the caller's map therefore cannot reach the builder.
- Build: the map copy made at line 245 is one `HashMap` object. The builder
  passes it to every configuration it builds (lines 107 and 253), and
  `getEncryptedColumns()` (line 270) hands it to any caller. Maps are values
  in the model, so this sharing is not represented. A caller that clears the
  returned map would make every column of every such configuration
  plaintext, and would make `deepClone` throw "No encrypted columns". Object
  identity is modelled only for byte buffers and column objects, whose
  sharing decides what a wipe destroys.
- Getters (`getAlgorithm`, `getFooterKey`, `getFooterKeyMetadata`,
  `getEncryptedColumns`, `getFileAAD`, `encryptedFooter`, `isUtilized`) are
  field reads of `FileProps`.
- Bytes.Utf8: its contract states only the length bounds and the ASCII case,
  not the full UTF-8 encoding. The body implements the encoding of section 3
  of RFC 3629. A Dafny string holds only Unicode scalar values, so a Java
  string's lone surrogate, which Java encodes as `?` (0x3F), is not
  represented.
- FileEncryption.SetUtilized: a configuration is a value, not a heap
  object. A Java caller that calls `setUtilized()` changes the one object
  every holder sees, and that sharing is what lets a writer refuse a used
  configuration. The model returns a new value instead. It cannot say that a
  second holder sees the flag, only that the flag changes nothing else
  (`FileEncryption.UtilizedFlagIsInert`). The writer that checks the flag is
  not part of this model.
- A null value in the caller's column map cannot be represented, because a
  `ColRef` is never null. In Java, `withEncryptedColumns` throws a
  null-pointer exception on such a value at line 239.
- Thread-safety is not modelled: the model is sequential.
- `BloomFilter.java` is an interface with no logic of its own. Its
  implementations rely on hashing and stream I/O that this model does not
  cover.

=== FILE: algorithm.dfy ===
/** The cipher choice and the algorithm metadata record written into the
    file footer.  The record is a union with one variant per cipher; each
    variant carries the file-unique AAD, whether the reader must supply the
    AAD prefix itself, and (optionally) the AAD prefix stored in the file. */
module Algorithm {
  import opened Wrappers
  import opened Bytes

  /** Length in bytes of the random file-unique AAD component. */
  const AAD_FILE_UNIQUE_LENGTH: nat := 8

  datatype ParquetCipher = AesGcmV1 | AesGcmCtrV1

  /** The fields shared by both variants of the metadata record.  The
      record's setters are taken to copy the bytes they are given, so both
      byte fields are values, not references to the caller's buffers. */
  datatype AesParams = AesParams(aadFileUnique: seq<byte>, supplyAadPrefix: bool, aadPrefix: Option<seq<byte>>)

  /** The metadata union; exactly one variant is ever set. */
  datatype EncryptionAlgorithm = GcmV1(params: AesParams) | GcmCtrV1(params: AesParams)
  {
    /** The cipher whose variant is set. */
    function Cipher(): ParquetCipher
    {
      if GcmV1? then AesGcmV1 else AesGcmCtrV1
    }
  }

  /** `cipher.getEncryptionAlgorithm()` followed by setting the fields of the
      one variant it selects. */
  function Populate(cipher: ParquetCipher, p: AesParams): (a: EncryptionAlgorithm)
    ensures a.Cipher() == cipher
    ensures a.params == p
  {
    match cipher
    case AesGcmV1 => GcmV1(p)
    case AesGcmCtrV1 => GcmCtrV1(p)
  }

  /** The file AAD a reader rebuilds from the footer's metadata record: the
      stored prefix if there is one, else the prefix it was handed out of
      band (`supplied`) when the record says one must be supplied, followed
      by the file-unique part. */
  function ReaderFileAad(a: EncryptionAlgorithm, supplied: seq<byte>): seq<byte>
  {
    var p := a.params;
    var prefix :=
      if p.aadPrefix.Some? then p.aadPrefix.value
      else if p.supplyAadPrefix then supplied
      else [];
    prefix + p.aadFileUnique
  }
}

=== FILE: builder.dfy ===
/** `FileEncryptionProperties.Builder`: stages the options of one file's
    encryption configuration.  Setters that may only be used once fail
    instead of overwriting; `Build` hands everything to the validating
    constructor. */
module FileEncryptionBuilder {
  import opened Wrappers
  import opened Bytes
  import opened Memory
  import opened Algorithm
  import opened FileEncryption

  datatype Builder = Builder(
    footerKeyBytes: BufRef,
    encryptedFooter: bool,
    cipher: Option<ParquetCipher>,
    footerKeyMetadata: Option<BufRef>,
    aadPrefix: Option<BufRef>,
    columns: Option<map<ColumnPath, ColRef>>,
    storeAadPrefixInFile: bool)
  {
    /** Every reference the builder holds points into `h`. */
    predicate ValidIn(h: Heap)
    {
      && h.HasBuf(footerKeyBytes)
      && h.HasOptBuf(footerKeyMetadata)
      && h.HasOptBuf(aadPrefix)
      && ColumnsIn(h, columns)
    }

    /** The store flag is only ever raised together with a prefix. */
    predicate Consistent()
    {
      storeAadPrefixInFile ==> aadPrefix.Some?
    }
  }

  /** `FileEncryptionProperties.builder(footerKey)`.  A null key is
      dereferenced (`footerKey.length`) and fails; otherwise the key is copied
      into a buffer the builder alone holds, so the caller's later writes to
      its own array do not reach the configuration. */
  function NewBuilder(h: Heap, footerKey: Option<BufRef>): (r: Result<(Heap, Builder), Error>)
    requires h.HasOptBuf(footerKey)
    ensures footerKey.None? ==> r == Failure(NullPointer)
    ensures footerKey.Some? ==> r.Success?
    ensures r.Success? ==>
              var (h', b) := r.value;
              var k := footerKey.value;
              && Extends(h, h') && h'.cols == h.cols && (h.Valid() ==> h'.Valid())
              && b.ValidIn(h') && b.Consistent()
              // a new buffer, equal in length and contents to the caller's
              && b.footerKeyBytes == |h.bufs| && b.footerKeyBytes != k
              && h'.bufs[b.footerKeyBytes] == h.bufs[k]
              && (forall v :: |v| == |h.bufs[k]| ==> Overwrite(h', k, v).bufs[b.footerKeyBytes] == h.bufs[k])
              // defaults
              && b.cipher == Some(ALGORITHM_DEFAULT)
              && b.encryptedFooter == ENCRYPTED_FOOTER_DEFAULT
              && b.footerKeyMetadata.None? && b.aadPrefix.None? && b.columns.None?
              && !b.storeAadPrefixInFile
  {
    if footerKey.None? then
      Failure(NullPointer)
    else
      var (h', copy) := CopyBuf(h, footerKey.value);
      Success((h', Builder(copy, ENCRYPTED_FOOTER_DEFAULT, Some(ALGORITHM_DEFAULT), None, None, None, false)))
  }

  /** `withPlaintextFooter()`: only the footer flag changes. */
  function WithPlaintextFooter(b: Builder): (r: Builder)
    ensures !r.encryptedFooter
    ensures r.(encryptedFooter := b.encryptedFooter) == b
  {
    b.(encryptedFooter := false)
  }

  /** `withAlgorithm(cipher)`: only the cipher changes.  A null cipher is
      accepted here and only refused by `build()`. */
  function WithAlgorithm(b: Builder, cipher: Option<ParquetCipher>): (r: Builder)
    ensures r.cipher == cipher
    ensures r.(cipher := b.cipher) == b
  {
    b.(cipher := cipher)
  }

  /** `withFooterKeyMetadata(metadata)`: null is ignored; a second value is
      refused; otherwise the caller's buffer itself (not a copy) is kept. */
  function WithFooterKeyMetadata(b: Builder, metadata: Option<BufRef>): (r: Result<Builder, Error>)
    ensures metadata.None? ==> r == Success(b)
    ensures metadata.Some? ==> (r.Success? <==> b.footerKeyMetadata.None?)
    ensures r.Failure? ==> r.error == FooterKeyMetadataAlreadySet
    ensures r.Success? ==>
              && r.value.footerKeyMetadata == (if metadata.Some? then metadata else b.footerKeyMetadata)
              && r.value.(footerKeyMetadata := b.footerKeyMetadata) == b
  {
    if metadata.None? then
      Success(b)
    else if b.footerKeyMetadata.Some? then
      Failure(FooterKeyMetadataAlreadySet)
    else
      Success(b.(footerKeyMetadata := metadata))
  }

  /** `withFooterKeyID(keyID)`: null is ignored; otherwise the UTF-8 bytes of
      the identifier, in a new buffer, go through `withFooterKeyMetadata`. */
  function WithFooterKeyID(h: Heap, b: Builder, keyID: Option<string>): (r: Result<(Heap, Builder), Error>)
    ensures keyID.None? ==> r == Success((h, b))
    ensures keyID.Some? ==> (r.Success? <==> b.footerKeyMetadata.None?)
    ensures r.Failure? ==> r.error == FooterKeyMetadataAlreadySet
    ensures r.Success? && keyID.Some? ==>
              var (h', b') := r.value;
              && Extends(h, h') && h'.cols == h.cols && (h.Valid() ==> h'.Valid())
              && |h'.bufs| == |h.bufs| + 1 && b'.footerKeyMetadata == Some(|h.bufs|)
              && h'.bufs[|h.bufs|] == Utf8(keyID.value)
              && b'.(footerKeyMetadata := b.footerKeyMetadata) == b
  {
    if keyID.None? then
      Success((h, b))
    else
      var (h', bytes) := AllocBuf(h, Utf8(keyID.value));
      match WithFooterKeyMetadata(b, Some(bytes))
      case Success(b') => Success((h', b'))
      case Failure(e) => Failure(e)
  }

  /** `withAADPrefix(prefix)`: null is ignored; a second prefix is refused;
      otherwise the caller's buffer itself is kept and, by default, stored in
      the file. */
  function WithAadPrefix(b: Builder, prefix: Option<BufRef>): (r: Result<Builder, Error>)
    ensures prefix.None? ==> r == Success(b)
    ensures prefix.Some? ==> (r.Success? <==> b.aadPrefix.None?)
    ensures r.Failure? ==> r.error == AadPrefixAlreadySet
    ensures r.Success? && prefix.Some? ==>
              && r.value.aadPrefix == prefix
              && r.value.storeAadPrefixInFile
              && r.value.(aadPrefix := b.aadPrefix, storeAadPrefixInFile := b.storeAadPrefixInFile) == b
    ensures r.Success? ==> (b.Consistent() ==> r.value.Consistent())
  {
    if prefix.None? then
      Success(b)
    else if b.aadPrefix.Some? then
      Failure(AadPrefixAlreadySet)
    else
      Success(b.(aadPrefix := prefix, storeAadPrefixInFile := true))
  }

  /** `withoutAADPrefixStorage()`: refused before a prefix is set; otherwise
      only the store flag is cleared. */
  function WithoutAadPrefixStorage(b: Builder): (r: Result<Builder, Error>)
    ensures r.Success? <==> b.aadPrefix.Some?
    ensures r.Failure? ==> r.error == AadPrefixNotYetSet
    ensures r.Success? ==>
              && !r.value.storeAadPrefixInFile
              && r.value.(storeAadPrefixInFile := b.storeAadPrefixInFile) == b
              && r.value.Consistent()
  {
    if b.aadPrefix.None? then
      Failure(AadPrefixNotYetSet)
    else
      Success(b.(storeAadPrefixInFile := false))
  }

  /** The exclusive setters refuse a second non-null value. */
  lemma SecondSetFails(b: Builder, m1: BufRef, m2: BufRef, p1: BufRef, p2: BufRef)
    ensures WithFooterKeyMetadata(b, Some(m1)).Success? ==>
              WithFooterKeyMetadata(WithFooterKeyMetadata(b, Some(m1)).value, Some(m2))
                == Failure(FooterKeyMetadataAlreadySet)
    ensures WithAadPrefix(b, Some(p1)).Success? ==>
              WithAadPrefix(WithAadPrefix(b, Some(p1)).value, Some(p2)) == Failure(AadPrefixAlreadySet)
  {
  }

  // ---------------------------------------------------------------------
  // withEncryptedColumns

  /** The column objects of `m`, in iteration order. */
  function Entries(m: map<ColumnPath, ColRef>, order: seq<ColumnPath>): (objs: seq<ColRef>)
    requires forall i :: 0 <= i < |order| ==> order[i] in m
    ensures |objs| == |order|
    ensures forall i :: 0 <= i < |order| ==> objs[i] == m[order[i]]
  {
    seq(|order|, i requires 0 <= i < |order| => m[order[i]])
  }

  /** The objects among the first `n` entries. */
  function Marked(objs: seq<ColRef>, n: nat): set<ColRef>
    requires n <= |objs|
  {
    set j | 0 <= j < n :: objs[j]
  }

  /** Every object of `objs` exists in `h`. */
  predicate AllIn(h: Heap, objs: seq<ColRef>)
  {
    forall i :: 0 <= i < |objs| ==> h.HasCol(objs[i])
  }

  /** When the loop reaches entry `j`, its object is already utilized:
      either it was before the call, or an earlier entry of this same map
      holds the same object and has just marked it. */
  predicate Reused(h: Heap, objs: seq<ColRef>, j: nat)
    requires j < |objs| && AllIn(h, objs)
  {
    h.cols[objs[j]].utilized || objs[j] in Marked(objs, j)
  }

  /** The first entry at or after `from` at which the loop throws. */
  function FirstReused(h: Heap, objs: seq<ColRef>, from: nat): (r: Option<nat>)
    requires from <= |objs| && AllIn(h, objs)
    ensures r.None? ==> forall k :: from <= k < |objs| ==> !Reused(h, objs, k)
    ensures r.Some? ==>
              && from <= r.value < |objs|
              && Reused(h, objs, r.value)
              && forall k :: from <= k < r.value ==> !Reused(h, objs, k)
    decreases |objs| - from
  {
    if from == |objs| then None
    else if Reused(h, objs, from) then Some(from)
    else FirstReused(h, objs, from + 1)
  }

  /** No object of `m` is utilized in `h`. */
  predicate NoneUtilized(h: Heap, m: map<ColumnPath, ColRef>)
    requires ColumnsIn(h, Some(m))
  {
    forall p :: p in m ==> !h.cols[m[p]].utilized
  }

  /** The loop runs to completion exactly when no object is utilized yet and
      no object is listed under two columns, whatever the iteration order. */
  lemma NoReuseIff(h: Heap, m: map<ColumnPath, ColRef>, order: seq<ColumnPath>)
    requires ColumnsIn(h, Some(m)) && Enumerates(order, m.Keys)
    ensures AllIn(h, Entries(m, order))
    ensures FirstReused(h, Entries(m, order), 0).None? <==> NoneUtilized(h, m) && Injective(m)
  {
    var objs := Entries(m, order);
    if FirstReused(h, objs, 0).None? {
      forall p | p in m
        ensures !h.cols[m[p]].utilized
      {
        var i :| 0 <= i < |order| && order[i] == p;
        assert !Reused(h, objs, i);
      }
      forall p, q | p in m && q in m && p != q
        ensures m[p] != m[q]
      {
        var i :| 0 <= i < |order| && order[i] == p;
        var j :| 0 <= j < |order| && order[j] == q;
        if i < j {
          assert !Reused(h, objs, j);
          assert objs[i] in Marked(objs, j);
        } else {
          assert !Reused(h, objs, i);
          assert objs[j] in Marked(objs, i);
        }
      }
    } else {
      var k := FirstReused(h, objs, 0).value;
      if !h.cols[objs[k]].utilized {
        var j :| 0 <= j < k && objs[j] == objs[k];
        assert order[j] != order[k];
      }
    }
  }

  /** Marking every entry's object is marking every value of the map. */
  lemma MarkedAllValues(m: map<ColumnPath, ColRef>, order: seq<ColumnPath>)
    requires Enumerates(order, m.Keys)
    ensures Marked(Entries(m, order), |order|) == m.Values
  {
    var objs := Entries(m, order);
    forall v | v in m.Values
      ensures v in Marked(objs, |order|)
    {
      var p :| p in m && m[p] == v;
      var i :| 0 <= i < |order| && order[i] == p;
      assert objs[i] == v;
    }
  }

  /** Marking one more object. */
  lemma MarkOneMore(h: Heap, s: set<ColRef>, c: ColRef)
    requires h.HasCol(c)
    ensures var h1 := MarkUtilized(h, s);
            h1.(cols := h1.cols[c := h1.cols[c].(utilized := true)]) == MarkUtilized(h, s + {c})
  {
    var h1 := MarkUtilized(h, s);
    var lhs := h1.(cols := h1.cols[c := h1.cols[c].(utilized := true)]);
    var rhs := MarkUtilized(h, s + {c});
    assert lhs.cols == rhs.cols by {
      assert forall d :: 0 <= d < |h.cols| ==> lhs.cols[d] == rhs.cols[d];
    }
  }

  /** `withEncryptedColumns(encryptedColumns)`.  Null is ignored; a second
      map is refused.  Otherwise the entries are visited in `order` and each
      object is checked and then marked utilized, one at a time: at the first
      object already utilized the call throws, leaving the objects of the
      entries before it marked.  On success every object is marked and the
      builder holds a copy of the map. */
  method WithEncryptedColumns(h: Heap, b: Builder, encryptedColumns: Option<map<ColumnPath, ColRef>>,
                              order: seq<ColumnPath>)
    returns (h': Heap, r: Result<Builder, Error>)
    requires h.Valid() && ColumnsIn(h, encryptedColumns)
    requires encryptedColumns.Some? ==> Enumerates(order, encryptedColumns.value.Keys)
    ensures h'.Valid() && h'.bufs == h.bufs && |h'.cols| == |h.cols|
    ensures encryptedColumns.None? ==> h' == h && r == Success(b)
    ensures encryptedColumns.Some? && b.columns.Some? ==> h' == h && r == Failure(ColumnPropertiesAlreadySet)
    ensures encryptedColumns.Some? && b.columns.None? ==>
              var m := encryptedColumns.value;
              var objs := Entries(m, order);
              && AllIn(h, objs)
              && (r.Success? <==> NoneUtilized(h, m) && Injective(m))
              && (r.Success? ==> r.value == b.(columns := Some(m)) && h' == MarkUtilized(h, m.Values))
              && (r.Failure? ==>
                    && r.error == ColumnPropertiesReused
                    && FirstReused(h, objs, 0).Some?
                    && h' == MarkUtilized(h, Marked(objs, FirstReused(h, objs, 0).value)))
  {
    if encryptedColumns.None? {
      return h, Success(b);
    }
    if b.columns.Some? {
      return h, Failure(ColumnPropertiesAlreadySet);
    }
    var m := encryptedColumns.value;
    var objs := Entries(m, order);
    NoReuseIff(h, m, order);
    var reused;
    h', reused := MarkEntries(h, objs);
    if reused.Some? {
      return h', Failure(ColumnPropertiesReused);
    }
    MarkedAllValues(m, order);
    r := Success(b.(columns := Some(m)));
  }

  /** The loop of `withEncryptedColumns`: each object is checked and then
      marked, in turn, until one is found utilized.  The result names that
      entry, and exactly the objects of the entries before it are marked. */
  method MarkEntries(h: Heap, objs: seq<ColRef>) returns (h': Heap, reused: Option<nat>)
    requires AllIn(h, objs)
    ensures reused == FirstReused(h, objs, 0)
    ensures h' == MarkUtilized(h, Marked(objs, if reused.Some? then reused.value else |objs|))
  {
    h' := h;
    var i := 0;
    while i < |objs|
      invariant 0 <= i <= |objs|
      invariant FirstReused(h, objs, 0) == FirstReused(h, objs, i)
      invariant h' == MarkUtilized(h, Marked(objs, i))
    {
      var c := objs[i];
      if h'.cols[c].utilized {
        assert Reused(h, objs, i);
        return h', Some(i);
      }
      MarkOneMore(h, Marked(objs, i), c);
      assert Marked(objs, i + 1) == Marked(objs, i) + {c};
      h' := h'.(cols := h'.cols[c := h'.cols[c].(utilized := true)]);
      i := i + 1;
    }
    reused := None;
  }

  // ---------------------------------------------------------------------
  // build

  /** `build()`: the staged options go to the constructor as they are, the
      footer key buffer included, so every configuration built from one
      builder shares that buffer.  The constructor's null check cannot fire
      here: the builder always holds a key. */
  function Build(h: Heap, b: Builder, aadFileUnique: seq<byte>): (r: Result<FileProps, Error>)
    requires b.ValidIn(h)
    requires |aadFileUnique| == AAD_FILE_UNIQUE_LENGTH
    ensures r.Success? <==>
              IsAesKeyLength(|h.bufs[b.footerKeyBytes]|) && NonEmptyIfPresent(b.columns) && b.cipher.Some?
    ensures r.Failure? ==>
              r.error == if !IsAesKeyLength(|h.bufs[b.footerKeyBytes]|) then WrongFooterKeyLength(|h.bufs[b.footerKeyBytes]|)
                         else if !NonEmptyIfPresent(b.columns) then NoEncryptedColumns
                         else NullPointer
    ensures r.Success? ==>
              var fp := r.value;
              && fp.ValidIn(h) && Invariant(h, fp) && !fp.utilized
              && fp.footerKey == b.footerKeyBytes
              && fp.cipher == b.cipher.value
              && fp.algorithm.Cipher() == b.cipher.value
              && fp.encryptedFooter == b.encryptedFooter
              && fp.footerKeyMetadata == b.footerKeyMetadata
              && fp.aadPrefix == b.aadPrefix
              && fp.storeAadPrefixInFile == b.storeAadPrefixInFile
              && fp.columns == b.columns
              && fp.fileAad == PrefixBytes(h, b.aadPrefix) + aadFileUnique
              && fp.algorithm.params.aadFileUnique == aadFileUnique
              && (fp.algorithm.params.supplyAadPrefix <==> b.aadPrefix.Some? && !b.storeAadPrefixInFile)
              && (fp.algorithm.params.aadPrefix.Some? <==> b.aadPrefix.Some? && b.storeAadPrefixInFile)
              && (fp.algorithm.params.aadPrefix.Some? ==> fp.algorithm.params.aadPrefix == Some(PrefixBytes(h, b.aadPrefix)))
              // a builder whose store flag implies a prefix stores one exactly when the flag says so
              && (b.Consistent() ==> (fp.algorithm.params.aadPrefix.Some? <==> fp.storeAadPrefixInFile))
  {
    Create(h, b.cipher, Some(b.footerKeyBytes), b.footerKeyMetadata, b.encryptedFooter,
           b.aadPrefix, b.storeAadPrefixInFile, b.columns, aadFileUnique)
  }

  /** The cipher chosen with `withAlgorithm` decides the variant of the built
      algorithm record and nothing else: a configuration built with another
      cipher differs only in the cipher and the record's variant, and a null
      cipher makes every otherwise valid build fail. */
  lemma ChosenCipherIsBuilt(h: Heap, b: Builder, c: Option<ParquetCipher>, u: seq<byte>)
    requires b.ValidIn(h) && |u| == AAD_FILE_UNIQUE_LENGTH
    requires Build(h, b, u).Success?
    ensures c.None? ==> Build(h, WithAlgorithm(b, c), u) == Failure(NullPointer)
    ensures c.Some? ==>
              var fp := Build(h, b, u).value;
              var fp' := Build(h, WithAlgorithm(b, c), u);
              && fp'.Success?
              && fp'.value.algorithm.Cipher() == c.value
              && fp'.value.algorithm.params == fp.algorithm.params
              && fp'.value == fp.(cipher := c.value, algorithm := fp'.value.algorithm)
  {
  }
}

=== FILE: bytes.dfy ===
/** Byte strings: the contents of Java `byte[]` buffers, zero filling, and the
    UTF-8 encoding used to turn a key identifier into key metadata. */
module Bytes {

  /** A Java `byte`, taken by its unsigned value. */
  newtype byte = x: int | 0 <= x < 0x100

  /** Every byte of `s` is zero. */
  predicate AllZero(s: seq<byte>)
  {
    forall i :: 0 <= i < |s| ==> s[i] == 0
  }

  /** A buffer of `n` zero bytes (`new byte[n]`, or the result of `Arrays.fill(b, 0)`). */
  function Zeros(n: nat): (r: seq<byte>)
    ensures |r| == n
    ensures AllZero(r)
  {
    seq(n, _ => 0 as byte)
  }

  /** The continuation byte `10xxxxxx` carrying the low six bits of `n`. */
  function Continuation(n: nat): byte
  {
    (0x80 + n % 0x40) as byte
  }

  /** The lead byte `110xxxxx` of a two-byte sequence. */
  function Lead2(n: nat): byte
    requires n < 0x800
  {
    assert n / 0x40 < 0x20;
    (0xC0 + n / 0x40) as byte
  }

  /** The lead byte `1110xxxx` of a three-byte sequence. */
  function Lead3(n: nat): byte
    requires n < 0x1_0000
  {
    assert n / 0x1000 < 0x10;
    (0xE0 + n / 0x1000) as byte
  }

  /** The lead byte `11110xxx` of a four-byte sequence. */
  function Lead4(n: nat): byte
    requires n < 0x11_0000
  {
    assert n / 0x4_0000 < 0x8;
    (0xF0 + n / 0x4_0000) as byte
  }

  /** The UTF-8 encoding of one Unicode scalar value (RFC 3629, section 3). */
  function EncodeChar(c: char): (r: seq<byte>)
    ensures 1 <= |r| <= 4
    ensures (c as int < 0x80) <==> |r| == 1
    ensures c as int < 0x80 ==> r[0] as int == c as int
  {
    var n := c as int;
    if n < 0x80 then
      [n as byte]
    else if n < 0x800 then
      [Lead2(n), Continuation(n)]
    else if n < 0x1_0000 then
      [Lead3(n), Continuation(n / 0x40), Continuation(n)]
    else
      [Lead4(n), Continuation(n / 0x1000), Continuation(n / 0x40), Continuation(n)]
  }

  /** `s.getBytes(StandardCharsets.UTF_8)`: every character takes one to four bytes. */
  function Utf8(s: string): (r: seq<byte>)
    ensures |s| <= |r| <= 4 * |s|
    ensures |s| > 0 ==> |r| > 0
  {
    if |s| == 0 then [] else EncodeChar(s[0]) + Utf8(s[1..])
  }

  /** An ASCII string encodes to itself, one byte per character. */
  lemma {:induction false} Utf8OfAscii(s: string)
    requires forall i :: 0 <= i < |s| ==> s[i] as int < 0x80
    ensures |Utf8(s)| == |s|
    ensures forall i :: 0 <= i < |s| ==> Utf8(s)[i] as int == s[i] as int
  {
    if |s| > 0 {
      Utf8OfAscii(s[1..]);
      assert Utf8(s) == EncodeChar(s[0]) + Utf8(s[1..]);
      forall i | 0 <= i < |s|
        ensures Utf8(s)[i] as int == s[i] as int
      {
        if i > 0 {
          assert Utf8(s)[i] == Utf8(s[1..])[i - 1];
          assert s[1..][i - 1] == s[i];
        }
      }
    }
  }
}

=== FILE: file_encryption.dfy ===
/** The per-file encryption configuration (`FileEncryptionProperties`): its
    validating constructor, which derives the file AAD and the footer's
    algorithm record, and the operations used after construction: column
    resolution, the utilized flag, key wiping and deep cloning. */
module FileEncryption {
  import opened Wrappers
  import opened Bytes
  import opened Memory
  import opened Algorithm

  const ALGORITHM_DEFAULT: ParquetCipher := AesGcmV1
  const ENCRYPTED_FOOTER_DEFAULT: bool := true

  /** The exceptions the configuration and its builder throw. */
  datatype Error =
    | NullPointer                  // a null key in `Builder(null)`, a null cipher in the constructor
    | FooterKeyNull                // "Footer key is null"
    | WrongFooterKeyLength(length: nat)
    | NoEncryptedColumns           // a column map that is present but empty
    | FooterKeyMetadataAlreadySet
    | AadPrefixAlreadySet
    | AadPrefixNotYetSet
    | ColumnPropertiesAlreadySet
    | ColumnPropertiesReused       // a column object already taken by a file

  /** The AES key sizes of section 5 of FIPS 197, in bytes. */
  predicate IsAesKeyLength(n: int)
  {
    n == 16 || n == 24 || n == 32
  }

  /** A column map is either absent or holds at least one entry. */
  predicate NonEmptyIfPresent(columns: Option<map<ColumnPath, ColRef>>)
  {
    columns.Some? ==> |columns.value| > 0
  }

  /** Every column object a map names exists in `h`. */
  predicate ColumnsIn(h: Heap, columns: Option<map<ColumnPath, ColRef>>)
  {
    columns.Some? ==> forall p :: p in columns.value ==> h.HasCol(columns.value[p])
  }

  /** The bytes of an optional AAD prefix; an absent prefix contributes nothing. */
  function PrefixBytes(h: Heap, prefix: Option<BufRef>): seq<byte>
    requires h.HasOptBuf(prefix)
  {
    if prefix.Some? then h.bufs[prefix.value] else []
  }

  datatype FileProps = FileProps(
    cipher: ParquetCipher,
    aadPrefix: Option<BufRef>,
    algorithm: EncryptionAlgorithm,
    encryptedFooter: bool,
    footerKey: BufRef,
    footerKeyMetadata: Option<BufRef>,
    fileAad: seq<byte>,
    columns: Option<map<ColumnPath, ColRef>>,
    utilized: bool,
    storeAadPrefixInFile: bool)
  {
    /** Every reference the configuration holds points into `h`. */
    predicate ValidIn(h: Heap)
    {
      && h.HasBuf(footerKey)
      && h.HasOptBuf(aadPrefix)
      && h.HasOptBuf(footerKeyMetadata)
      && ColumnsIn(h, columns)
    }
  }

  /** What the constructor guarantees about every configuration it returns. */
  predicate Invariant(h: Heap, fp: FileProps)
  {
    && h.HasBuf(fp.footerKey)
    && IsAesKeyLength(|h.bufs[fp.footerKey]|)
    && NonEmptyIfPresent(fp.columns)
  }

  /** The private constructor.  `aadFileUnique` stands for the bytes drawn
      from `SecureRandom`.  A null cipher passes the three checks and then
      fails when its algorithm record is asked for. */
  function Create(h: Heap, cipher: Option<ParquetCipher>, footerKey: Option<BufRef>,
                  footerKeyMetadata: Option<BufRef>, encryptedFooter: bool,
                  aadPrefix: Option<BufRef>, storeAadPrefixInFile: bool,
                  columns: Option<map<ColumnPath, ColRef>>, aadFileUnique: seq<byte>): (r: Result<FileProps, Error>)
    requires h.HasOptBuf(footerKey) && h.HasOptBuf(aadPrefix)
    requires |aadFileUnique| == AAD_FILE_UNIQUE_LENGTH
    // validation, in the order the checks are made
    ensures footerKey.None? ==> r == Failure(FooterKeyNull)
    ensures footerKey.Some? && !IsAesKeyLength(|h.bufs[footerKey.value]|) ==>
              r == Failure(WrongFooterKeyLength(|h.bufs[footerKey.value]|))
    ensures footerKey.Some? && IsAesKeyLength(|h.bufs[footerKey.value]|) && !NonEmptyIfPresent(columns) ==>
              r == Failure(NoEncryptedColumns)
    ensures && footerKey.Some? && IsAesKeyLength(|h.bufs[footerKey.value]|) && NonEmptyIfPresent(columns)
            && cipher.None?
            ==> r == Failure(NullPointer)
    ensures r.Success? <==>
              && footerKey.Some? && IsAesKeyLength(|h.bufs[footerKey.value]|) && NonEmptyIfPresent(columns)
              && cipher.Some?
    // the options are kept, the key buffer by reference
    ensures r.Success? ==>
              var fp := r.value;
              && fp.footerKey == footerKey.value
              && fp.cipher == cipher.value
              && fp.encryptedFooter == encryptedFooter
              && fp.footerKeyMetadata == footerKeyMetadata
              && fp.aadPrefix == aadPrefix
              && fp.storeAadPrefixInFile == storeAadPrefixInFile
              && fp.columns == columns
              && !fp.utilized
              && Invariant(h, fp)
              && (fp.ValidIn(h) <==> h.HasOptBuf(footerKeyMetadata) && ColumnsIn(h, columns))
    // AAD derivation
    ensures r.Success? ==>
              var fp := r.value;
              var p := fp.algorithm.params;
              && fp.fileAad == PrefixBytes(h, aadPrefix) + aadFileUnique
              && fp.algorithm.Cipher() == cipher.value
              && p.aadFileUnique == aadFileUnique
              && (p.supplyAadPrefix <==> aadPrefix.Some? && !storeAadPrefixInFile)
              && (p.aadPrefix.Some? <==> aadPrefix.Some? && storeAadPrefixInFile)
              && (p.aadPrefix.Some? ==> p.aadPrefix == Some(PrefixBytes(h, aadPrefix)))
  {
    if footerKey.None? then
      Failure(FooterKeyNull)
    else if !IsAesKeyLength(|h.bufs[footerKey.value]|) then
      Failure(WrongFooterKeyLength(|h.bufs[footerKey.value]|))
    else if columns.Some? && |columns.value| == 0 then
      Failure(NoEncryptedColumns)
    else if cipher.None? then
      Failure(NullPointer)
    else
      var fileAad := if aadPrefix.None? then aadFileUnique else h.bufs[aadPrefix.value] + aadFileUnique;
      var supplyAadPrefix := aadPrefix.Some? && !storeAadPrefixInFile;
      var storedPrefix := if aadPrefix.Some? && storeAadPrefixInFile then Some(h.bufs[aadPrefix.value]) else None;
      var algorithm := Populate(cipher.value, AesParams(aadFileUnique, supplyAadPrefix, storedPrefix));
      Success(FileProps(cipher.value, aadPrefix, algorithm, encryptedFooter, footerKey.value,
                        footerKeyMetadata, fileAad, columns, false, storeAadPrefixInFile))
  }

  /** A reader that follows the footer's algorithm record rebuilds exactly the
      writer's file AAD: with no prefix or a stored one it needs nothing from
      outside; when the record asks for the prefix to be supplied, it gets the
      writer's file AAD back if and only if it supplies that very prefix. */
  lemma ReaderRecoversFileAad(h: Heap, cipher: Option<ParquetCipher>, footerKey: Option<BufRef>,
                              footerKeyMetadata: Option<BufRef>, encryptedFooter: bool,
                              aadPrefix: Option<BufRef>, storeAadPrefixInFile: bool,
                              columns: Option<map<ColumnPath, ColRef>>, aadFileUnique: seq<byte>,
                              supplied: seq<byte>)
    requires h.HasOptBuf(footerKey) && h.HasOptBuf(aadPrefix)
    requires |aadFileUnique| == AAD_FILE_UNIQUE_LENGTH
    requires Create(h, cipher, footerKey, footerKeyMetadata, encryptedFooter, aadPrefix,
                    storeAadPrefixInFile, columns, aadFileUnique).Success?
    ensures var fp := Create(h, cipher, footerKey, footerKeyMetadata, encryptedFooter, aadPrefix,
                             storeAadPrefixInFile, columns, aadFileUnique).value;
            && (!fp.algorithm.params.supplyAadPrefix ==> ReaderFileAad(fp.algorithm, supplied) == fp.fileAad)
            && (fp.algorithm.params.supplyAadPrefix ==>
                  (ReaderFileAad(fp.algorithm, supplied) == fp.fileAad <==> supplied == PrefixBytes(h, aadPrefix)))
  {
    var fp := Create(h, cipher, footerKey, footerKeyMetadata, encryptedFooter, aadPrefix,
                     storeAadPrefixInFile, columns, aadFileUnique).value;
    if fp.algorithm.params.supplyAadPrefix {
      var prefix := PrefixBytes(h, aadPrefix);
      if supplied + aadFileUnique == prefix + aadFileUnique {
        assert |supplied| == |prefix|;
        assert supplied == (supplied + aadFileUnique)[..|supplied|];
        assert prefix == (prefix + aadFileUnique)[..|prefix|];
      }
    }
  }

  /** `getColumnProperties(columnPath)`: with no column map every column is
      encrypted with the footer key; with a map, a listed column gets exactly
      its stored object and an unlisted one a plaintext entry.  The fresh
      entries are new objects; nothing that existed before is changed. */
  function GetColumnProperties(h: Heap, fp: FileProps, path: ColumnPath): (res: (Heap, ColRef))
    requires h.Valid() && fp.ValidIn(h)
    ensures Extends(h, res.0) && res.0.Valid() && res.0.bufs == h.bufs
    ensures res.1 < |res.0.cols|
    ensures fp.columns.Some? && path in fp.columns.value ==> res == (h, fp.columns.value[path])
    ensures fp.columns.None? || path !in fp.columns.value ==>
              && res.1 == |h.cols|
              && |res.0.cols| == |h.cols| + 1
              && res.0.cols[res.1] == ColumnProps(path, fp.columns.None?, None, false)
  {
    if fp.columns.None? then
      NewColumn(h, path, true)
    else if path in fp.columns.value then
      (h, fp.columns.value[path])
    else
      NewColumn(h, path, false)
  }

  /** `setUtilized()`: the configuration is now taken by a writer; nothing
      else about it changes.  (`isUtilized()` reads the `utilized` field.) */
  function SetUtilized(fp: FileProps): (r: FileProps)
    ensures r.utilized
    ensures r.(utilized := fp.utilized) == fp
  {
    fp.(utilized := true)
  }

  /** The key buffers a configuration owns: the footer key and the key of
      every column object in its map. */
  function KeyBufs(h: Heap, fp: FileProps): set<BufRef>
    requires ColumnsIn(h, fp.columns)
  {
    {fp.footerKey} +
      if fp.columns.None? then {}
      else set p | p in fp.columns.value && h.cols[fp.columns.value[p]].key.Some?
                 :: h.cols[fp.columns.value[p]].key.value
  }

  /** `wipeOutEncryptionKeys()`: the footer key and every mapped column's key
      read as zeros of their original length; every other buffer, every
      column object (flags, paths) and the configuration itself (file AAD,
      prefix, metadata, map) are unchanged. */
  function WipeOutEncryptionKeys(h: Heap, fp: FileProps): (h': Heap)
    requires h.Valid() && fp.ValidIn(h)
    ensures SameShape(h, h') && h'.cols == h.cols
    ensures AllZero(h'.bufs[fp.footerKey])
    ensures fp.columns.Some? ==>
              forall p :: p in fp.columns.value && h.cols[fp.columns.value[p]].key.Some? ==>
                AllZero(h'.bufs[h.cols[fp.columns.value[p]].key.value])
    ensures forall i :: 0 <= i < |h.bufs| && i !in KeyBufs(h, fp) ==> h'.bufs[i] == h.bufs[i]
  {
    ZeroBufs(h, KeyBufs(h, fp))
  }

  /** Wiping one configuration leaves the keys of another intact when the
      two own disjoint key buffers. */
  lemma WipeKeepsDisjointKeys(h: Heap, a: FileProps, b: FileProps)
    requires h.Valid() && a.ValidIn(h) && b.ValidIn(h)
    requires KeyBufs(h, a) !! KeyBufs(h, b)
    ensures WipeSpares(h, a, b)
  {
    KeyBufsInHeap(h, b);
  }

  /** Wiping `a` leaves every key buffer of `b` as it was. */
  predicate WipeSpares(h: Heap, a: FileProps, b: FileProps)
    requires h.Valid() && a.ValidIn(h) && b.ValidIn(h)
  {
    forall i :: i in KeyBufs(h, b) ==> WipeOutEncryptionKeys(h, a).bufs[i] == h.bufs[i]
  }

  /** A configuration owns only buffers that exist in the heap it lives in. */
  lemma KeyBufsInHeap(h: Heap, fp: FileProps)
    requires h.Valid() && fp.ValidIn(h)
    ensures forall i :: i in KeyBufs(h, fp) ==> i < |h.bufs|
  {
    forall i | i in KeyBufs(h, fp)
      ensures i < |h.bufs|
    {
      if i != fp.footerKey {
        var p :| p in fp.columns.value && h.cols[fp.columns.value[p]].key == Some(i);
        assert h.HasOptBuf(h.cols[fp.columns.value[p]].key);
      }
    }
  }

  /** Allocation does not change which buffers a configuration owns. */
  lemma KeyBufsStable(h: Heap, h': Heap, fp: FileProps)
    requires Extends(h, h') && ColumnsIn(h, fp.columns)
    ensures ColumnsIn(h', fp.columns)
    ensures KeyBufs(h', fp) == KeyBufs(h, fp)
  {
    if fp.columns.Some? {
      var m := fp.columns.value;
      assert forall p :: p in m ==> h'.cols[m[p]] == h.cols[m[p]];
    }
  }

  /** A column clone stays a clone while the heap only grows. */
  lemma ClonedColumnStable(h: Heap, src: ColRef, h1: Heap, dst: ColRef, h2: Heap)
    requires h.HasCol(src) && ClonedColumn(h, src, h1, dst) && Extends(h1, h2)
    ensures ClonedColumn(h, src, h2, dst)
  {
  }

  /** A clone made from a grown heap is a clone with respect to the original heap. */
  lemma ClonedColumnFromGrown(h: Heap, h1: Heap, src: ColRef, h2: Heap, dst: ColRef)
    requires h.Valid() && h.HasCol(src) && Extends(h, h1) && ClonedColumn(h1, src, h2, dst)
    ensures ClonedColumn(h, src, h2, dst)
  {
    assert h1.cols[src] == h.cols[src];
    assert h.HasOptBuf(h.cols[src].key);
  }

  /** No two columns of `m` share one object. */
  predicate Injective(m: map<ColumnPath, ColRef>)
  {
    forall p, q :: p in m && q in m && p != q ==> m[p] != m[q]
  }

  /** No two column objects of `m` share one key buffer. */
  predicate DistinctKeys(h: Heap, m: map<ColumnPath, ColRef>)
    requires ColumnsIn(h, Some(m))
  {
    forall p, q :: p in m && q in m && p != q && h.cols[m[p]].key.Some? ==> h.cols[m[q]].key != h.cols[m[p]].key
  }

  /** Each entry of `m2` is a deep clone, made after `h`, of the object `m`
      maps the same column to, and each was cloned on its own: no two
      columns share a clone or a cloned key. */
  predicate ClonedMap(h: Heap, m: map<ColumnPath, ColRef>, h': Heap, m2: map<ColumnPath, ColRef>)
    requires ColumnsIn(h, Some(m))
  {
    && m2.Keys == m.Keys
    && (forall p :: p in m2 ==> ClonedColumn(h, m[p], h', m2[p]))
    && Injective(m2)
    && DistinctKeys(h', m2)
  }

  /** Adding an object allocated after `h`, with a key (if any) allocated
      after `h`, to a map of distinct objects with distinct keys keeps them
      distinct. */
  lemma NewCloneKeepsDistinct(h: Heap, m: map<ColumnPath, ColRef>, h': Heap, p: ColumnPath, c: ColRef)
    requires h.Valid() && ColumnsIn(h, Some(m)) && Injective(m) && DistinctKeys(h, m)
    requires Extends(h, h') && p !in m
    requires |h.cols| <= c < |h'.cols|
    requires h'.cols[c].key.Some? ==> |h.bufs| <= h'.cols[c].key.value
    ensures ColumnsIn(h', Some(m[p := c]))
    ensures Injective(m[p := c]) && DistinctKeys(h', m[p := c])
  {
    var m' := m[p := c];
    forall q | q in m
      ensures h'.cols[m[q]] == h.cols[m[q]]
      ensures m[q] != c
      ensures h'.cols[c].key.Some? ==> h'.cols[m[q]].key != h'.cols[c].key
    {
      assert h.HasOptBuf(h.cols[m[q]].key);
    }
  }

  /** The loop of `deepClone` over the column map: `put(key, value.deepClone())`
      for every entry, visited in `order`. */
  method CloneColumnMap(h: Heap, m: map<ColumnPath, ColRef>, order: seq<ColumnPath>)
    returns (h': Heap, m2: map<ColumnPath, ColRef>)
    requires h.Valid() && ColumnsIn(h, Some(m))
    requires Enumerates(order, m.Keys)
    ensures h'.Valid() && Extends(h, h')
    ensures ColumnsIn(h', Some(m2))
    ensures ClonedMap(h, m, h', m2)
  {
    h' := h;
    m2 := map[];
    var i := 0;
    while i < |order|
      invariant 0 <= i <= |order|
      invariant h'.Valid() && Extends(h, h')
      invariant forall p :: p in m2 <==> p in order[..i]
      invariant forall p :: p in m2 ==> p in m && ClonedColumn(h, m[p], h', m2[p])
      invariant Injective(m2) && DistinctKeys(h', m2)
    {
      var p := order[i];
      var (h2, c) := CloneColumn(h', m[p]);
      ClonedColumnFromGrown(h, h', m[p], h2, c);
      forall q | q in m2
        ensures ClonedColumn(h, m[q], h2, m2[q])
      {
        ClonedColumnStable(h, m[q], h', m2[q], h2);
      }
      assert order[..i + 1] == order[..i] + [p];
      assert p !in m2 by {
        assert forall j :: 0 <= j < i ==> order[j] != order[i];
      }
      NewCloneKeepsDistinct(h', m2, h2, p, c);
      m2 := m2[p := c];
      h' := h2;
      i := i + 1;
    }
    assert order[..i] == order;
    assert m2.Keys == m.Keys;
  }

  /** A clone whose footer key and column objects were all allocated after
      `h` owns no key buffer the source owns. */
  lemma CloneKeysDisjoint(h: Heap, fp: FileProps, h': Heap, c: FileProps)
    requires h.Valid() && fp.ValidIn(h) && Extends(h, h')
    requires |h.bufs| <= c.footerKey
    requires c.columns.Some? ==> fp.columns.Some? && ClonedMap(h, fp.columns.value, h', c.columns.value)
    requires ColumnsIn(h', c.columns)
    ensures KeyBufs(h', c) !! KeyBufs(h', fp)
  {
    KeyBufsInHeap(h, fp);
    KeyBufsStable(h, h', fp);
    forall i | i in KeyBufs(h', c)
      ensures |h.bufs| <= i
    {
      if i != c.footerKey {
        var p :| p in c.columns.value && h'.cols[c.columns.value[p]].key == Some(i);
        assert ClonedColumn(h, fp.columns.value[p], h', c.columns.value[p]);
      }
    }
  }

  /** The prefix a clone gets: the new one if given, else the source's own buffer. */
  function ClonePrefix(fp: FileProps, newAadPrefix: Option<BufRef>): Option<BufRef>
  {
    if newAadPrefix.Some? then newAadPrefix else fp.aadPrefix
  }

  /** `c` in `h'` is a deep clone of `fp` in `h` built with the file-unique
      bytes `aadFileUnique`. */
  predicate IsDeepClone(h: Heap, fp: FileProps, newAadPrefix: Option<BufRef>, aadFileUnique: seq<byte>,
                        h': Heap, c: FileProps)
    requires fp.ValidIn(h) && h.HasOptBuf(newAadPrefix)
  {
    && c.ValidIn(h') && Invariant(h', c) && !c.utilized
    // a fresh footer key buffer with the same bytes
    && |h.bufs| <= c.footerKey
    && h'.bufs[c.footerKey] == h.bufs[fp.footerKey]
    // the same policy
    && c.cipher == fp.cipher
    && c.encryptedFooter == fp.encryptedFooter
    && c.footerKeyMetadata == fp.footerKeyMetadata
    && c.storeAadPrefixInFile == fp.storeAadPrefixInFile
    // the new prefix if one is given, else the source's (shared) one
    && c.aadPrefix == ClonePrefix(fp, newAadPrefix)
    && c.fileAad == PrefixBytes(h, c.aadPrefix) + aadFileUnique
    && c.algorithm.Cipher() == fp.cipher
    && c.algorithm.params.aadFileUnique == aadFileUnique
    && (c.algorithm.params.supplyAadPrefix <==> c.aadPrefix.Some? && !fp.storeAadPrefixInFile)
    && (c.algorithm.params.aadPrefix.Some? <==> c.aadPrefix.Some? && fp.storeAadPrefixInFile)
    && (c.algorithm.params.aadPrefix.Some? ==> c.algorithm.params.aadPrefix == Some(PrefixBytes(h, c.aadPrefix)))
    // the same columns, each mapped to a deep clone of the source's object
    && (c.columns.Some? <==> fp.columns.Some?)
    && (c.columns.Some? ==> ClonedMap(h, fp.columns.value, h', c.columns.value))
  }

  /** A reader of a deep clone's footer rebuilds the clone's own file AAD,
      exactly as for a configuration fresh from the constructor. */
  lemma CloneReaderRecoversFileAad(h: Heap, fp: FileProps, newAadPrefix: Option<BufRef>, aadFileUnique: seq<byte>,
                                   h': Heap, c: FileProps, supplied: seq<byte>)
    requires fp.ValidIn(h) && h.HasOptBuf(newAadPrefix)
    requires IsDeepClone(h, fp, newAadPrefix, aadFileUnique, h', c)
    ensures !c.algorithm.params.supplyAadPrefix ==> ReaderFileAad(c.algorithm, supplied) == c.fileAad
    ensures c.algorithm.params.supplyAadPrefix ==>
              (ReaderFileAad(c.algorithm, supplied) == c.fileAad <==> supplied == PrefixBytes(h, c.aadPrefix))
  {
    if c.algorithm.params.supplyAadPrefix {
      var prefix := PrefixBytes(h, c.aadPrefix);
      if supplied + aadFileUnique == prefix + aadFileUnique {
        assert supplied == (supplied + aadFileUnique)[..|supplied|];
        assert prefix == (prefix + aadFileUnique)[..|prefix|];
      }
    }
  }

  /** The constructor call at the end of `deepClone`, given the cloned key
      and column map, yields a deep clone exactly when the source is valid. */
  lemma CreateMakesDeepClone(h: Heap, fp: FileProps, newAadPrefix: Option<BufRef>, aadFileUnique: seq<byte>,
                             h': Heap, footerKeyBytes: BufRef, columnProps: Option<map<ColumnPath, ColRef>>)
    requires h.Valid() && fp.ValidIn(h) && h.HasOptBuf(newAadPrefix)
    requires |aadFileUnique| == AAD_FILE_UNIQUE_LENGTH
    requires h'.Valid() && Extends(h, h')
    requires footerKeyBytes == |h.bufs| < |h'.bufs| && h'.bufs[footerKeyBytes] == h.bufs[fp.footerKey]
    requires columnProps.Some? <==> fp.columns.Some?
    requires columnProps.Some? ==> ColumnsIn(h', columnProps) && ClonedMap(h, fp.columns.value, h', columnProps.value)
    ensures var r := Create(h', Some(fp.cipher), Some(footerKeyBytes), fp.footerKeyMetadata, fp.encryptedFooter,
                            ClonePrefix(fp, newAadPrefix), fp.storeAadPrefixInFile, columnProps, aadFileUnique);
            && (r.Success? <==> Invariant(h, fp))
            && (r.Success? ==> IsDeepClone(h, fp, newAadPrefix, aadFileUnique, h', r.value))
  {
    var prefix := ClonePrefix(fp, newAadPrefix);
    assert PrefixBytes(h', prefix) == PrefixBytes(h, prefix);
    assert columnProps.Some? ==> |columnProps.value| == |fp.columns.value|;
  }

  /** `deepClone(newAadPrefix)`: a configuration for another file with the
      same policy.  `order` is the iteration order of the column map and
      `aadFileUnique` the new random bytes. */
  method DeepClone(h: Heap, fp: FileProps, newAadPrefix: Option<BufRef>, order: seq<ColumnPath>,
                   aadFileUnique: seq<byte>)
    returns (h': Heap, r: Result<FileProps, Error>)
    requires h.Valid() && fp.ValidIn(h)
    requires h.HasOptBuf(newAadPrefix)
    requires fp.columns.Some? ==> Enumerates(order, fp.columns.value.Keys)
    requires |aadFileUnique| == AAD_FILE_UNIQUE_LENGTH
    // the source and everything else already allocated is untouched
    ensures h'.Valid() && Extends(h, h') && fp.ValidIn(h')
    // the clone is re-validated, and passes exactly when the source would
    ensures r.Success? <==> Invariant(h, fp)
    ensures r.Success? ==> IsDeepClone(h, fp, newAadPrefix, aadFileUnique, h', r.value)
    // a source without a prefix keeps `storeAadPrefixInFile == false`, so a
    // new prefix given here must be supplied by the reader
    ensures r.Success? && fp.aadPrefix.None? && !fp.storeAadPrefixInFile && newAadPrefix.Some? ==>
              r.value.algorithm.params.supplyAadPrefix && r.value.algorithm.params.aadPrefix.None?
    // the two configurations own disjoint key buffers: wiping either leaves the other's keys intact
    ensures r.Success? ==>
              && KeyBufs(h', r.value) !! KeyBufs(h', fp)
              && WipeSpares(h', r.value, fp)
              && WipeSpares(h', fp, r.value)
  {
    var (h1, footerKeyBytes) := CopyBuf(h, fp.footerKey);
    var columnProps: Option<map<ColumnPath, ColRef>> := None;
    h' := h1;
    if fp.columns.Some? {
      var m := fp.columns.value;
      var m2;
      h', m2 := CloneColumnMap(h1, m, order);
      forall p | p in m2
        ensures ClonedColumn(h, m[p], h', m2[p])
      {
        ClonedColumnFromGrown(h, h1, m[p], h', m2[p]);
      }
      columnProps := Some(m2);
    }
    CreateMakesDeepClone(h, fp, newAadPrefix, aadFileUnique, h', footerKeyBytes, columnProps);
    r := Create(h', Some(fp.cipher), Some(footerKeyBytes), fp.footerKeyMetadata, fp.encryptedFooter,
                ClonePrefix(fp, newAadPrefix), fp.storeAadPrefixInFile, columnProps, aadFileUnique);
    if r.Success? {
      CloneKeysDisjoint(h, fp, h', r.value);
      WipeKeepsDisjointKeys(h', r.value, fp);
      WipeKeepsDisjointKeys(h', fp, r.value);
    }
  }

  /** The utilized flag is read by nothing else here: setting it changes
      neither the key buffers the wipe reaches, nor column resolution, nor
      whether the configuration is a valid source for `deepClone`, nor what
      counts as a deep clone of it. */
  lemma UtilizedFlagIsInert(h: Heap, fp: FileProps, path: ColumnPath, newAadPrefix: Option<BufRef>,
                            aadFileUnique: seq<byte>, h': Heap, c: FileProps)
    requires h.Valid() && fp.ValidIn(h) && h.HasOptBuf(newAadPrefix)
    ensures SetUtilized(fp).ValidIn(h)
    ensures KeyBufs(h, SetUtilized(fp)) == KeyBufs(h, fp)
    ensures WipeOutEncryptionKeys(h, SetUtilized(fp)) == WipeOutEncryptionKeys(h, fp)
    ensures GetColumnProperties(h, SetUtilized(fp), path) == GetColumnProperties(h, fp, path)
    ensures Invariant(h, SetUtilized(fp)) == Invariant(h, fp)
    ensures IsDeepClone(h, SetUtilized(fp), newAadPrefix, aadFileUnique, h', c)
            == IsDeepClone(h, fp, newAadPrefix, aadFileUnique, h', c)
  {
  }
}

=== FILE: lifecycle.dfy ===
/** Properties that span several operations: what repeated builds share,
    what wiping does to later reads, what the caller's buffers still reach
    after construction, and the worked scenarios of a configuration's life. */
module Lifecycle {
  import opened Wrappers
  import opened Bytes
  import opened Memory
  import opened Algorithm
  import opened FileEncryption
  import opened FileEncryptionBuilder

  /** Two `build()` calls on one builder succeed or fail together and hand
      both configurations the builder's one footer key buffer, so wiping the
      first zeroes the key of the second.  Only the file-unique bytes tell
      their file AADs apart. */
  lemma RepeatedBuildsShareFooterKey(h: Heap, b: Builder, u1: seq<byte>, u2: seq<byte>)
    requires h.Valid() && b.ValidIn(h)
    requires |u1| == AAD_FILE_UNIQUE_LENGTH && |u2| == AAD_FILE_UNIQUE_LENGTH
    requires Build(h, b, u1).Success?
    ensures Build(h, b, u2).Success?
    ensures var fp1 := Build(h, b, u1).value;
            var fp2 := Build(h, b, u2).value;
            && fp1.footerKey == fp2.footerKey
            && AllZero(WipeOutEncryptionKeys(h, fp1).bufs[fp2.footerKey])
            && (fp1.fileAad == fp2.fileAad <==> u1 == u2)
  {
    var fp1 := Build(h, b, u1).value;
    var fp2 := Build(h, b, u2).value;
    var prefix := PrefixBytes(h, b.aadPrefix);
    if fp1.fileAad == fp2.fileAad {
      assert u1 == fp1.fileAad[|prefix|..];
      assert u2 == fp2.fileAad[|prefix|..];
    }
  }

  /** Wiping changes no reference, no flag and no buffer length, so the
      configuration keeps its invariant and resolves every column to the same
      object; and wiping a second time changes nothing more. */
  lemma WipeIsStableAndIdempotent(h: Heap, fp: FileProps, path: ColumnPath)
    requires h.Valid() && fp.ValidIn(h)
    ensures var w := WipeOutEncryptionKeys(h, fp);
            && w.Valid() && fp.ValidIn(w)
            && (Invariant(h, fp) <==> Invariant(w, fp))
            && GetColumnProperties(w, fp, path).1 == GetColumnProperties(h, fp, path).1
            && WipeOutEncryptionKeys(w, fp) == w
  {
    var w := WipeOutEncryptionKeys(h, fp);
    assert KeyBufs(w, fp) == KeyBufs(h, fp);
    var w2 := WipeOutEncryptionKeys(w, fp);
    forall i | 0 <= i < |w.bufs|
      ensures w2.bufs[i] == w.bufs[i]
    {
      if i in KeyBufs(h, fp) {
        assert AllZero(w.bufs[i]) && AllZero(w2.bufs[i]) && |w2.bufs[i]| == |w.bufs[i]|;
      }
    }
    assert w2.bufs == w.bufs;
  }

  /** A listed column resolves to the very object whose key the wipe zeroes. */
  lemma ResolvedColumnKeyIsWiped(h: Heap, fp: FileProps, path: ColumnPath)
    requires h.Valid() && fp.ValidIn(h)
    requires fp.columns.Some? && path in fp.columns.value
    ensures var (h1, c) := GetColumnProperties(h, fp, path);
            && h1 == h
            && (h.cols[c].key.Some? ==> AllZero(WipeOutEncryptionKeys(h, fp).bufs[h.cols[c].key.value]))
  {
  }

  /** The configuration keeps the caller's prefix buffer itself, while its
      file AAD (and the record's copy of a stored prefix) were fixed at
      construction.  If the caller then writes other bytes into that buffer,
      the configuration's own footer still yields its file AAD, but a clone
      made without a new prefix reads the buffer afresh: its file AAD starts
      with the new bytes and no longer with the source's prefix. */
  lemma CallerPrefixWritesReachClones(h: Heap, b: Builder, u: seq<byte>, v: seq<byte>,
                                      u2: seq<byte>, h3: Heap, c: FileProps)
    requires h.Valid() && b.ValidIn(h) && |u| == AAD_FILE_UNIQUE_LENGTH
    requires b.aadPrefix.Some? && Build(h, b, u).Success?
    requires |v| == |h.bufs[b.aadPrefix.value]| && v != h.bufs[b.aadPrefix.value]
    requires IsDeepClone(Overwrite(h, b.aadPrefix.value, v), Build(h, b, u).value, None, u2, h3, c)
    ensures var fp := Build(h, b, u).value;
            && fp.aadPrefix == b.aadPrefix
            && c.aadPrefix == b.aadPrefix
            && fp.fileAad == h.bufs[b.aadPrefix.value] + u
            && (b.storeAadPrefixInFile ==> ReaderFileAad(fp.algorithm, []) == fp.fileAad)
            && c.fileAad == v + u2
            && c.fileAad[..|v|] != fp.fileAad[..|v|]
  {
    var fp := Build(h, b, u).value;
    var old_ := h.bufs[b.aadPrefix.value];
    assert c.fileAad == v + u2;
    assert (v + u2)[..|v|] == v;
    assert (old_ + u)[..|old_|] == old_;
  }

  /** `n` key bytes, none of them zero. */
  function SampleKey(n: nat): seq<byte>
  {
    seq(n, i => (i % 255 + 1) as byte)
  }

  /** Scenario: a 16-byte footer key, no prefix, no column map.  Every column
      is encrypted with the footer key, the file AAD is just the file-unique
      bytes, and after the wipe the configuration's key reads as sixteen
      zeros while the caller's own array keeps its bytes. */
  lemma FooterKeyOnlyScenario(u: seq<byte>)
    requires |u| == AAD_FILE_UNIQUE_LENGTH
    ensures var h := Heap([SampleKey(16)], []);
            var (h1, b) := NewBuilder(h, Some(0)).value;
            var r := Build(h1, b, u);
            && r.Success?
            && r.value.fileAad == u
            && r.value.algorithm == GcmV1(AesParams(u, false, None))
            && (var (h2, c) := GetColumnProperties(h1, r.value, ["a", "b"]);
                h2.cols[c] == ColumnProps(["a", "b"], true, None, false))
            && (var w := WipeOutEncryptionKeys(h1, r.value);
                && w.bufs[r.value.footerKey] == Zeros(16)
                && w.bufs[r.value.footerKey] != h1.bufs[r.value.footerKey]
                && w.bufs[0] == SampleKey(16))
  {
    var h := Heap([SampleKey(16)], []);
    var (h1, b) := NewBuilder(h, Some(0)).value;
    var fp := Build(h1, b, u).value;
    var w := WipeOutEncryptionKeys(h1, fp);
    assert KeyBufs(h1, fp) == {1};
    assert w.bufs[1] == Zeros(16);
    assert w.bufs[1][0] != h1.bufs[1][0];
  }

  /** Scenario: a 15-byte footer key is refused by `build()`. */
  lemma ShortKeyScenario(u: seq<byte>)
    requires |u| == AAD_FILE_UNIQUE_LENGTH
    ensures var h := Heap([SampleKey(15)], []);
            var (h1, b) := NewBuilder(h, Some(0)).value;
            Build(h1, b, u) == Failure(WrongFooterKeyLength(15))
  {
    var h := Heap([SampleKey(15)], []);
    var (h1, b) := NewBuilder(h, Some(0)).value;
    assert |h1.bufs[b.footerKeyBytes]| == 15;
  }

  /** Scenario: a 32-byte footer key and one encrypted column "x".  The
      column object becomes utilized; "x" resolves to it and "y" to a new
      plaintext entry; a second builder that tries to take the same object
      is refused. */
  method ColumnMapScenario(u: seq<byte>) returns (h: Heap, fp: FileProps, x: ColRef, y: ColRef, again: Result<Builder, Error>)
    requires |u| == AAD_FILE_UNIQUE_LENGTH
    ensures |h.cols| == 2 && h.cols[0].utilized
    ensures x == 0 && y == 1
    ensures h.cols[y] == ColumnProps(["y"], false, None, false)
    ensures fp.columns == Some(map[["x"] := 0])
    ensures again == Failure(ColumnPropertiesReused)
  {
    var xCol := ColumnProps(["x"], true, None, false);
    var h0 := Heap([SampleKey(32)], [xCol]);
    var (h1, b) := NewBuilder(h0, Some(0)).value;
    var cols := map[["x"] := 0];
    assert Enumerates([["x"]], cols.Keys);
    var h2, rb := WithEncryptedColumns(h1, b, Some(cols), [["x"]]);
    assert NoneUtilized(h1, cols) && Injective(cols);
    var b1 := rb.value;
    var r := Build(h2, b1, u);
    fp := r.value;
    var (hx, cx) := GetColumnProperties(h2, fp, ["x"]);
    var (hy, cy) := GetColumnProperties(hx, fp, ["y"]);
    assert h2.cols[0].utilized by {
      assert 0 in cols.Values;
    }
    var h3;
    h3, again := WithEncryptedColumns(hy, b, Some(cols), [["x"]]);
    assert !NoneUtilized(hy, cols) by {
      assert hy.cols[0] == h2.cols[0];
    }
    h, x, y := hy, cx, cy;
  }
}

=== FILE: memory.dfy ===
/** The part of the Java heap the configuration touches: byte buffers
    (`byte[]`) and column-encryption-property objects.  A reference is an
    index into the heap, so two fields that hold the same index alias one
    buffer, and an allocation always yields an index no one holds yet. */
module Memory {
  import opened Wrappers
  import opened Bytes

  /** Reference to a `byte[]`. */
  type BufRef = nat

  /** Reference to a `ColumnEncryptionProperties` object. */
  type ColRef = nat

  /** A column path, a sequence of name components. */
  type ColumnPath = seq<string>

  /** The per-column configuration object, seen from the outside: its column,
      whether that column is encrypted, its own key buffer (absent when the
      column is encrypted with the footer key or not encrypted at all), and
      the flag recording that some file configuration has taken it. */
  datatype ColumnProps = ColumnProps(path: ColumnPath, encrypted: bool, key: Option<BufRef>, utilized: bool)

  datatype Heap = Heap(bufs: seq<seq<byte>>, cols: seq<ColumnProps>)
  {
    predicate HasBuf(r: BufRef)
    {
      r < |bufs|
    }

    predicate HasCol(c: ColRef)
    {
      c < |cols|
    }

    predicate HasOptBuf(r: Option<BufRef>)
    {
      r.Some? ==> r.value < |bufs|
    }

    /** Every column object's key reference points into the heap. */
    predicate Valid()
    {
      forall c :: 0 <= c < |cols| ==> HasOptBuf(cols[c].key)
    }
  }

  /** `order` lists every key of a map exactly once: one possible iteration
      order of `HashMap.entrySet()`, which Java leaves unspecified. */
  predicate Enumerates<K>(order: seq<K>, keys: set<K>)
  {
    && (forall i, j :: 0 <= i < j < |order| ==> order[i] != order[j])
    && (forall i :: 0 <= i < |order| ==> order[i] in keys)
    && (forall k :: k in keys ==> k in order)
  }

  /** `h'` is `h` after allocations only: every existing buffer and object is untouched. */
  predicate Extends(h: Heap, h': Heap)
  {
    && |h.bufs| <= |h'.bufs|
    && |h.cols| <= |h'.cols|
    && (forall i :: 0 <= i < |h.bufs| ==> h'.bufs[i] == h.bufs[i])
    && (forall c :: 0 <= c < |h.cols| ==> h'.cols[c] == h.cols[c])
  }

  /** `h'` differs from `h` at most in the contents of existing buffers, never in their lengths. */
  predicate SameShape(h: Heap, h': Heap)
  {
    && |h'.bufs| == |h.bufs|
    && (forall i :: 0 <= i < |h.bufs| ==> |h'.bufs[i]| == |h.bufs[i]|)
  }

  /** `new byte[n]` filled with `contents`. */
  function AllocBuf(h: Heap, contents: seq<byte>): (res: (Heap, BufRef))
    ensures Extends(h, res.0) && res.0.cols == h.cols
    ensures res.1 == |h.bufs| && |res.0.bufs| == |h.bufs| + 1
    ensures res.0.bufs[res.1] == contents
    ensures h.Valid() ==> res.0.Valid()
  {
    (h.(bufs := h.bufs + [contents]), |h.bufs|)
  }

  /** `src.clone()`, or `new byte[src.length]` followed by `System.arraycopy`:
      a fresh buffer holding the same bytes. */
  function CopyBuf(h: Heap, src: BufRef): (res: (Heap, BufRef))
    requires h.HasBuf(src)
    ensures Extends(h, res.0) && res.0.cols == h.cols
    ensures res.1 == |h.bufs| && res.1 != src && |res.0.bufs| == |h.bufs| + 1
    ensures res.0.bufs[res.1] == h.bufs[src]
    ensures h.Valid() ==> res.0.Valid()
  {
    AllocBuf(h, h.bufs[src])
  }

  /** A caller writing new bytes into a buffer it holds; a Java array keeps its length. */
  function Overwrite(h: Heap, r: BufRef, contents: seq<byte>): (h': Heap)
    requires h.HasBuf(r) && |contents| == |h.bufs[r]|
    ensures SameShape(h, h') && h'.cols == h.cols
    ensures h'.bufs[r] == contents
    ensures forall i :: 0 <= i < |h.bufs| && i != r ==> h'.bufs[i] == h.bufs[i]
  {
    h.(bufs := h.bufs[r := contents])
  }

  /** `Arrays.fill(b, (byte) 0)` applied to every buffer in `s`. */
  function ZeroBufs(h: Heap, s: set<BufRef>): (h': Heap)
    ensures SameShape(h, h') && h'.cols == h.cols
    ensures forall i :: 0 <= i < |h.bufs| && i in s ==> AllZero(h'.bufs[i])
    ensures forall i :: 0 <= i < |h.bufs| && i !in s ==> h'.bufs[i] == h.bufs[i]
  {
    h.(bufs := seq(|h.bufs|, i requires 0 <= i < |h.bufs| => if i in s then Zeros(|h.bufs[i]|) else h.bufs[i]))
  }

  /** `ColumnEncryptionProperties.builder(path, encrypted).build()` without a
      column key: a fresh, untaken object. */
  function NewColumn(h: Heap, path: ColumnPath, encrypted: bool): (res: (Heap, ColRef))
    ensures Extends(h, res.0) && res.0.bufs == h.bufs
    ensures res.1 == |h.cols| && |res.0.cols| == |h.cols| + 1
    ensures res.0.cols[res.1] == ColumnProps(path, encrypted, None, false)
    ensures h.Valid() ==> res.0.Valid()
  {
    (h.(cols := h.cols + [ColumnProps(path, encrypted, None, false)]), |h.cols|)
  }

  /** `dst` in `h'` is a deep clone of `src` in `h`: same column and
      encryption choice, not taken by any file, and its key (if any) is a
      buffer allocated after `h` holding the same bytes. */
  predicate ClonedColumn(h: Heap, src: ColRef, h': Heap, dst: ColRef)
    requires h.HasCol(src)
  {
    var s := h.cols[src];
    && |h.cols| <= dst < |h'.cols|
    && var d := h'.cols[dst];
    && d.path == s.path
    && d.encrypted == s.encrypted
    && !d.utilized
    && d.key.Some? == s.key.Some?
    && (d.key.Some? ==>
          && h.HasBuf(s.key.value)
          && |h.bufs| <= d.key.value < |h'.bufs|
          && h'.bufs[d.key.value] == h.bufs[s.key.value])
  }

  /** `ColumnEncryptionProperties.deepClone()`: a fresh, untaken object with
      its own copy of the column key. */
  function CloneColumn(h: Heap, c: ColRef): (res: (Heap, ColRef))
    requires h.Valid() && h.HasCol(c)
    ensures Extends(h, res.0) && res.0.Valid()
    ensures ClonedColumn(h, c, res.0, res.1)
  {
    var src := h.cols[c];
    if src.key.None? then
      var cp := ColumnProps(src.path, src.encrypted, None, false);
      (h.(cols := h.cols + [cp]), |h.cols|)
    else
      var (h1, k) := CopyBuf(h, src.key.value);
      var cp := ColumnProps(src.path, src.encrypted, Some(k), false);
      (h1.(cols := h1.cols + [cp]), |h1.cols|)
  }

  /** `ColumnEncryptionProperties.setUtilized()` on every object in `s`. */
  function MarkUtilized(h: Heap, s: set<ColRef>): (h': Heap)
    ensures h'.bufs == h.bufs && |h'.cols| == |h.cols|
    ensures forall c :: 0 <= c < |h.cols| && c in s ==> h'.cols[c] == h.cols[c].(utilized := true)
    ensures forall c :: 0 <= c < |h.cols| && c !in s ==> h'.cols[c] == h.cols[c]
  {
    h.(cols := seq(|h.cols|, c requires 0 <= c < |h.cols| =>
                     if c in s then h.cols[c].(utilized := true) else h.cols[c]))
  }
}

=== FILE: wrappers.dfy ===
/** Optional values (the model of Java's nullable references) and
    success/failure results (the model of thrown exceptions). */
module Wrappers {

  /** `None` stands for a Java `null`. */
  datatype Option<+T> = None | Some(value: T)

  /** `Failure` stands for a thrown `IllegalArgumentException` or
      `NullPointerException`; `Success` for a normal return. */
  datatype Result<+T, +E> = Success(value: T) | Failure(error: E)
}
